=== FILE: README.md ===
# SvelteKit adapter for Cloudflare Workers, modelled in Dafny

This project models the two pieces of logic in the adapter.

**The request dispatcher (`entry.js`).** It runs inside the deployed worker. It classifies a request path as a static-asset candidate when:
- the path has no trailing `/`, and
- the path lies under `/_app/` or is matched by the baked-in static-path regex.

A static candidate may only be read with GET or HEAD; any other method gets 405. Store hits are served with an inferred content type. Misses and non-candidates go to the framework's `render`. That call's answer, decline (404) or failure (500) becomes the response. A `set-cookie` array is expanded into one header line per cookie.

**The build step (`index.js`).** It walks the staged asset directory, escapes every staged path outside `_app/` with `regexEscape`, and joins them into an alternation. `replaceInFile` then splices that text into the dispatcher's regex in place of the `|static_paths` placeholder.

Modules, one per concern:

- `wrappers.dfy` (`Wrappers`): `Option` and `Result`.
- `strings.dfy` (`Strings`): `startsWith`, `endsWith`, `indexOf`, first-occurrence `replace`, ASCII lower-casing.
- `escaping.dfy` (`Escaping`): `regexEscape`, its inverse `Unescape`, and `LiteralText`. `LiteralText` reads an escaped string back as regular-expression literal atoms.
- `static_paths.dfy` (`StaticPaths`): the pattern built in `writeWorker`, a scanner that splits an alternation at unescaped `|`, and the semantics of the regex fragment the baked regex lives in. It also holds the theorem that the baked regex accepts exactly `"/" + p` for the kept staged paths `p`.
- `asset_walk.dfy` (`AssetWalk`): `children` over an in-memory directory tree, `removePrefix` and `relativeChildren`.
- `dispatch.dfy` (`Dispatch`): `handle` and its helpers.

Everything outside the worker's own logic is a parameter of `Dispatch.Handle`:
- the asset store is a `map<string, string>`;
- the baked static-path set is a `set<string>`;
- `mime.getType` is a function `string -> Option<string>`;
- SvelteKit's `render` is a function from a render request to one of three outcomes: a response, a decline, or a thrown value.

`Dispatch.ClassificationMatchesBakedRegex` shows that, for a worker that parses (no kept staged path holds a line terminator), testing membership in `StaticPaths.StaticPathSet(staged)` is the same as running the baked regex.

A static hit whose MIME type is unknown gets `text/plain; charset=utf-8`: the `text/plain` default is applied before the charset test (entry.js:102-104).

## Model

| member | source | states |
|---|---|---|
| Strings.IndexOf | index.js:64 | `indexOf` finds a match exactly when the needle occurs somewhere, and it finds the first occurrence |
| Strings.ReplaceFirst | index.js:46-49 | only the first occurrence of the placeholder is replaced, and everything after it is kept verbatim. An absent placeholder leaves the content unchanged |
| Strings.ReplaceAtFirst | index.js:46-49 | when the placeholder first occurs right after `front`, the result is `front`, then the replacement, then the untouched rest |
| Strings.ToLowerAscii | entry.js:81 | lower-casing keeps the length, leaves no upper-case ASCII letter, and changes a character only by turning an upper-case letter into its lower-case form |
| Escaping.RegexEscape | index.js:51 | the escaped string is as long as the input plus the number of its non-word characters |
| Escaping.EscapeConcat | index.js:51 | escaping works character by character: it distributes over concatenation |
| Escaping.EscapeSingle | index.js:51 | a word character is kept; any other character gets exactly one backslash in front |
| Escaping.EscapeWordsIdentity | index.js:51 | a string made only of `[A-Za-z0-9_]` is left unchanged |
| Escaping.UnescapeInvertsEscape | index.js:51 | removing each escaping backslash from `regexEscape(s)` gives back `s` |
| Escaping.LiteralTextOfEscape | index.js:51 | read as regex literal atoms, `regexEscape(s)` denotes exactly `s` |
| Escaping.EscapeOfLiteralText | index.js:51 | every plain regex literal is the escape of the text it denotes (the converse of the row above) |
| Escaping.LineTerminatorConcat | index.js:40 | a concatenation holds a line terminator exactly when one of its parts does |
| Escaping.EscapeKeepsLineTerminators | index.js:51 | `regexEscape(s)` holds a line terminator exactly when `s` does: escaping cannot hide one |
| StaticPaths.KeptPaths | index.js:38-39 | the kept paths are exactly the staged paths that do not start with `_app/` |
| StaticPaths.KeptConcat | index.js:38-39 | the `_app/` filter works path by path: filtering a concatenation concatenates the filtered parts |
| StaticPaths.KeptSingle | index.js:39 | one path is kept unchanged when it lies outside `_app/`, and dropped otherwise |
| StaticPaths.KeptSnoc | index.js:38-39 | appending a staged path appends it to the kept paths, or nothing for an `_app/` path, so staged order and duplicates survive |
| StaticPaths.Alternation | index.js:40-41 | every kept path, even an empty one, opens an alternative with `\|`, so the text is at least one character per path |
| StaticPaths.BuildPattern | index.js:38-41 | the pattern is empty exactly when every staged path starts with `_app/` |
| StaticPaths.AlternationConcat | index.js:40-41 | the pattern is the in-order concatenation of `'\|' + regexEscape(p)` over the kept paths |
| StaticPaths.EscapedIsBarFree | index.js:51 | an escaped path contains no unescaped `\|` and does not end inside an escape |
| StaticPaths.SplitAfterBarFree | index.js:40 | a bar-free prefix stays glued to the first alternative when the alternation is split |
| StaticPaths.SplitAlternation | index.js:38-41 | after the sentinel, the pattern splits into exactly the escaped kept paths, in order |
| StaticPaths.SplitAtBar | index.js:40 | an unescaped `\|` after a bar-free alternative starts a new alternative |
| StaticPaths.PlaceholderPosition | entry.js:20 | the first `\|static_paths` in the regex source comes right after the never-matching alternative `(?=a)b` |
| StaticPaths.BakedRegex | index.js:43 | the substituted regex source starts with `^\/(?:(?=a)b`, ends with `)$`, and is exactly long enough to hold the pattern between them |
| StaticPaths.BakedRegexShape | index.js:43 | the substitution lands on the placeholder inside the regex literal, between the sentinel alternative and `)$` |
| StaticPaths.AcceptsAlternation | entry.js:20 | a regex `^\/(?:(?=a)b\|…)$` whose other alternatives are escaped paths without line terminators accepts exactly `/` followed by one of those paths |
| StaticPaths.AlternationLineTerminator | index.js:40-41 | the pattern holds a line terminator exactly when one of the kept paths does |
| StaticPaths.ShapeLineTerminator | entry.js:20 | the baked regex source holds a line terminator exactly when one of the kept paths does |
| StaticPaths.StaticPathSetMembership | index.js:38-39 | a path is in the static-path set exactly when it is `/` followed by a kept staged path |
| StaticPaths.BakedRegexIsMembership | entry.js:20 | after the build substitution, the dispatcher's regex accepts a path exactly when it is `"/" + p` for a staged `p` outside `_app/`, provided no such `p` holds a line terminator. If one does, the regex literal does not parse |
| StaticPaths.NothingKeptAcceptsNothing | index.js:38-43 | when nothing is kept, the baked regex accepts no path |
| StaticPaths.UnsubstitutedRegex | entry.js:20 | if the placeholder were never substituted, the regex would accept only `/static_paths` |
| AssetWalk.Join | index.js:81 | the joined path starts with the directory it was joined under |
| AssetWalk.Walk | index.js:77-89 | the walk yields as many paths as the tree has file leaves |
| AssetWalk.WalkEntry | index.js:82-86 | one entry yields as many paths as it has file leaves: one for a file |
| AssetWalk.WalkIsLeafPaths | index.js:77-89 | a path is walked exactly when it is the joined path of a file leaf; a directory never yields a path of its own |
| AssetWalk.WalkEntryIsLeafPath | index.js:81-86 | a file entry yields exactly its joined path, and a directory entry exactly the leaf paths below it |
| AssetWalk.WalkConcat | index.js:80-87 | the results of consecutive entries are spliced in enumeration order |
| AssetWalk.WalkSingle | index.js:82-86 | a single entry's walk is that entry's contribution |
| AssetWalk.Children | index.js:77-89 | the loop with recursive descent computes the depth-first walk, and its length is the number of file leaves |
| AssetWalk.RemovePrefix | index.js:63-68 | fails, with the source's message, exactly when the value does not start with the prefix; otherwise prefix + result is the value |
| AssetWalk.WithSlash | index.js:71-73 | the base ends in `/` and differs from the input at most by that one `/` |
| AssetWalk.JoinUnderBase | index.js:81 | joining under a base ending in `/` equals joining under the root with the base in front |
| AssetWalk.WalkUnderBase | index.js:74 | every path walked under the base is the root-relative path with the base in front |
| AssetWalk.WalkEntryUnderBase | index.js:82-86 | the same as the row above, for one entry |
| AssetWalk.StripAll | index.js:74 | when stripping succeeds, each result with the base in front is the walked path at the same position |
| AssetWalk.StripPrefixed | index.js:74 | stripping the base from base-prefixed paths never fails and gives back the paths |
| AssetWalk.RelativeChildren | index.js:70-75 | for a normalised base it never fails; each entry is a walked file path with the slash-terminated base stripped, so the result is the tree's file listing relative to the root |
| AssetWalk.StagingDirIsNormalised | index.js:54 | the staging directory `target/assets` the build passes in is normalised |
| Dispatch.SafeMethod | entry.js:39-41 | exactly `GET` and `HEAD` are safe, compared case-sensitively: an accepted name is all upper-case |
| Dispatch.IsStaticCandidate | entry.js:19-20 | a path ending in `/` is never a candidate; any other path under `/_app/` always is; any other path is one exactly when it is in the static set |
| Dispatch.DeclaredType | entry.js:102 | the looked-up type is never empty: a non-empty MIME answer is used as it is, and a missing or empty one becomes `text/plain` |
| Dispatch.StaticKey | entry.js:25 | the store key is the path without its first character |
| Dispatch.StaticContentType | entry.js:102-105 | `; charset=utf-8` is appended exactly when the looked-up type (default `text/plain`) starts with `text` or is `application/javascript`. No other type changes. `.js` and `.css` get the values the tests expect |
| Dispatch.MethodNotAllowed | entry.js:52-58 | a 405 with body `405 Method Not Allowed` and one `content-type: text/plain` line, as pinned by the 405 clause of `Dispatch.Handle` |
| Dispatch.NotFound | entry.js:60-66 | a 404 with body `404 Not Found` and one `content-type: text/plain` line, as pinned by the decline clause of `Dispatch.Dynamic` |
| Dispatch.InternalServerError | entry.js:43-50 | a 500 whose body is the given text, with one `Content-Type: text/plain` line |
| Dispatch.StaticResponse | entry.js:101-111 | a static hit is answered 200 with the stored body and a single `Content-Type` line holding the static content type |
| Dispatch.TestedContentTypes | test.js:91-95 | the string facts the tested values rest on: `text/css` and `text/plain` start with `text`, and each tested type followed by `; charset=utf-8` spells the expected header. What the model serves for those paths is stated by `Dispatch.StaticContentType` |
| Dispatch.IsSetCookie | entry.js:81 | only a ten-character name can be `set-cookie`; `Dispatch.SetCookieAnyCase` gives the full case-insensitive test |
| Dispatch.HeaderLines | entry.js:81-87 | a `set-cookie` array gives one line per cookie, in order, under the given name; any other entry gives exactly one line with the value as `append` stores it |
| Dispatch.TranslateHeaders | entry.js:79-88 | every line carries a name of the render response. Each non-cookie-array entry yields its line. Every cookie of a `set-cookie` array appears as a line of its own |
| Dispatch.HeaderLinesFacts | entry.js:81-87 | the lines of one entry keep its name. A `set-cookie` array yields each cookie; any other entry yields its appended value |
| Dispatch.TranslateConcat | entry.js:80-88 | each entry's lines appear in place, in entry order |
| Dispatch.CookieArrayLines | entry.js:81-84 | a `set-cookie` array (any letter case) gives one line per cookie, in array order, with exactly that cookie's text |
| Dispatch.OtherHeaderLine | entry.js:85-87 | any other entry gives exactly one line; an array value is comma-joined as `append` converts it |
| Dispatch.SetCookieAnyCase | entry.js:81 | a name is treated as `set-cookie` exactly when it has ten characters, each the lower- or upper-case form of the character of `set-cookie` at that place |
| Dispatch.MixedCaseCookies | entry.js:81-84 | a `Set-Cookie` array is expanded as well, one line per cookie, keeping the name as given |
| Dispatch.TwoCookies | test.js:70-74 | `set-cookie: ['a=b', 'c=d']` gives two separate lines `a=b` and `c=d` |
| Dispatch.ErrorDetail | entry.js:97 | a non-empty `message` is used; a missing or empty one falls back to the thrown value's string form |
| Dispatch.ToRenderRequest | entry.js:70-77 | render receives the request's headers, host, method, path and query unchanged, and its body as `rawBody` |
| Dispatch.RenderRoute | entry.js:68-99 | gives no response exactly when render declines; a throw gives a 500; a render response keeps its status and body |
| Dispatch.Dynamic | entry.js:68-98 | a decline gives 404 `404 Not Found` `text/plain`. A throw gives 500 `text/plain` with body `Error rendering route: ` plus the message, or the thrown value when it has no message. A response keeps its status and body and gets its headers translated. The request body reaches render |
| Dispatch.Route | entry.js:19-29 | a non-candidate or a store miss takes the fallback; a candidate with an unsafe method gets the 405; a safe hit gets the static response for the stored body |
| Dispatch.Handle | entry.js:15-37 | non-candidates and trailing-slash paths go straight to render. A candidate with a method other than GET/HEAD gets 405 `405 Method Not Allowed` `text/plain`. A GET/HEAD hit gets 200 with the stored body and the static content type. A miss falls through to render |
| Dispatch.TrailingSlashIgnoresStaticTier | entry.js:19-21 | for a path ending in `/`, the store, the static set and the MIME table make no difference |
| Dispatch.MethodGateIgnoresStoreAndRender | entry.js:22-24 | a candidate with an unsafe method gets the same 405 whether or not the key exists and whatever render would do |
| Dispatch.StaticHitIgnoresRender | entry.js:25-28 | a store hit is answered without render |
| Dispatch.ClassificationMatchesBakedRegex | entry.js:19-20 | for a staged list with no line terminator in a kept path, classifying against the baked static-path set is the same as classifying with the baked regex |
| Dispatch.StagedPathsAreCandidates | index.js:38-39 | dropping `_app/` paths from the pattern loses nothing: every staged file's request path is still a candidate |
| Dispatch.DynamicAsWritten | entry.js:76 | as written, a request without a body is rendered as by the corrected tier, and one with a body gets the 500 of the ReferenceError whatever render would do |
| Dispatch.HandleAsWritten | entry.js:15-37 | as written, requests without a body, 405s and store hits are answered as by the corrected `handle` |
| Dispatch.BodyRequestsFailAsWritten | entry.js:76 | as written, any request with a body that reaches render gets 500 `Error rendering route: read is not defined` |
| Dispatch.EchoSeesBody | entry.js:76 | with the body passed through, a route that echoes its body returns the posted body. As written, the same request gets 500 |

## Findings

| source | as written | input that shows it | evidently intended | confidence | as-written member | corrected member |
|---|---|---|---|---|---|---|
| entry.js:76 | `rawBody` is built by calling `read(request)`, but no module imports or defines `read`. The ReferenceError is caught as a render failure | any request with a body whose path goes to render, e.g. a POST of `hello` to `/echo` | read the request body and pass it to render as `rawBody` | medium; not executed | Dispatch.BodyRequestsFailAsWritten | Dispatch.EchoSeesBody |

`Dispatch.DynamicAsWritten` and `Dispatch.HandleAsWritten` give the behaviour as written. `Dispatch.Dynamic` and `Dispatch.Handle`, which the rest of the model uses, pass the body through.

## Left out

- `bin/upload-worker.js`: CLI flag parsing, token lookup, HTTP PUTs and the unthrottled batch upload are network I/O. Its one rule (exactly one account) is trivial.
- `test-app/src/hooks.js` is not modelled. It is timer-driven deferred work through `waitUntil` and process-global state.
- `test.js` is not modelled either. It is an end-to-end test suite, used here only as evidence for the properties above.
- The unused `kvAssets` table, `statusText` strings and console logging.
- Filesystem effects: rimraf, copying, `readFile`/`writeFile`, and `readdir` errors. The directory tree is an in-memory value.
- `replaceInFile` runs on the whole bundled worker. The model runs it on the regex source alone. This relies on the first `|static_paths` in the bundle being the one inside the regex literal.
- `String.prototype.replace` interprets `$` patterns in the replacement string. That is not modelled; the replacement is literal.
- Regular-expression evaluation is modelled only for the fragment the baked regex lives in: anchors, a never-matching first alternative, and escaped-literal alternatives. `StaticPaths.Accepts` returns `None` outside that fragment.
- StaticPaths.BakedRegexIsMembership: characters are whole code points, so the lemma also promises a match for a staged path holding a character above U+FFFF, and the source does not deliver it.
  - Without the `u` flag, `\W` in `regexEscape` (index.js:51) escapes each UTF-16 surrogate half separately, leaving two lone surrogates.
  - `writeFile` (index.js:48) encodes each lone surrogate as U+FFFD, so the baked regex never matches that path.
  - Request pathnames are percent-encoded ASCII, so no request reaches the difference.
- `path.join` normalisation (`.`, `..`, repeated separators) and Windows separators. `AssetWalk.Join` joins an already normalised directory with a plain entry name.
- URL parsing: the pathname is given and is not percent-decoded.
- Request-header flattening: `Request.headers` is already the flattened map, so duplicate inbound headers are lost before the model starts.
- `mime.getType` and SvelteKit's `render` are function parameters, so their internals are not modelled. SvelteKit's `init` is not modelled.
- Bodies are strings, not streams or byte arrays.
- `Headers` semantics: header-name validation (an invalid name would throw inside the try and turn into a 500) and name case-normalisation.
- Dispatch.TranslateHeaders: does not model what `headers.append` (entry.js:83, 86) does to a value.
  - It trims leading and trailing HTTP whitespace, while the model keeps the value as given. So `Dispatch.CookieArrayLines` promises the untrimmed cookie text.
  - It throws a TypeError for a value holding NUL, CR, LF or a character above U+00FF. The catch turns that into a 500, while the model answers with the render status.
- `Dispatch.IsSetCookie` lower-cases ASCII letters only. Valid header names are ASCII tokens.
- StaticPaths.BakedRegexIsMembership: promises membership only when no kept staged path holds a line terminator (LF, CR, U+2028, U+2029). `regexEscape` puts a backslash before such a character but leaves it in place, and a regular-expression literal cannot contain one. The bundled worker then fails to parse and answers nothing. The lemma states this case as `Accepts` returning `None`.
- Dispatch.ClassificationMatchesBakedRegex: requires that no kept staged path holds a line terminator, for the same reason. Otherwise the worker does not load, so no classification takes place. It also inherits the gap for characters above U+FFFF from the `StaticPaths.BakedRegexIsMembership` line on code points.
- AssetWalk.RelativeChildren: promises success only for a normalised base. `path.join` rewrites a base such as `./t` or `t//x` into `t/…`, and `removePrefix` would then throw. The model's `Join` does not normalise. The build's only call passes `target/assets` (index.js:54), which `AssetWalk.StagingDirIsNormalised` shows is normalised.
- Dispatch.Dynamic: does not model three failures inside `renderResponse`. A header value that `headers.append` rejects gives a 500 in the source, as the `Dispatch.TranslateHeaders` line says. Next, `new Response` can throw inside the try: a RangeError for a status outside 200-599, or a TypeError for a non-null body with status 204, 205 or 304. Either is caught and becomes a 500, with a message text set by the runtime. Last, a thrown `null` or `undefined` fails again at `err.stack` inside the catch, so the request gets no response at all.
- Async ordering and concurrency: every operation is a pure function of its inputs.

=== FILE: asset_walk.dfy ===
/** The asset collector of the build adapter (index.js:63-89): a depth-first
    walk over a directory tree that yields file paths only, and the prefix
    stripping that turns them into paths relative to the staging root. The tree is
    an in-memory value standing for what `readdir` enumerates. */
module AssetWalk {
  import opened Wrappers
  import opened Strings

  /** A directory entry in enumeration order: a file, or a directory with its own
      entries. */
  datatype Entry = File(name: string) | Dir(name: string, entries: seq<Entry>)

  /** `path.join(dir, name)` for an already normalised `dir` and a plain entry
      name: one `/` between the two, none added after a trailing one, and no
      leading separator for an empty `dir`. */
  function Join(dir: string, name: string): (r: string)
    ensures dir != "" ==> StartsWith(r, dir)
  {
    if dir == "" then name
    else if EndsWith(dir, "/") then dir + name
    else dir + "/" + name
  }

  /** Number of file leaves of a forest. */
  function FileCount(entries: seq<Entry>): nat
    decreases entries
  {
    if |entries| == 0 then 0
    else
      (match entries[0]
       case File(_) => 1
       case Dir(_, sub) => FileCount(sub))
      + FileCount(entries[1..])
  }

  /** Reference definition of the walk: each entry contributes, in place, its
      own path if it is a file and the walk of its contents if it is a directory. */
  function Walk(dir: string, entries: seq<Entry>): (r: seq<string>)
    ensures |r| == FileCount(entries)
    decreases entries
  {
    if |entries| == 0 then []
    else WalkEntry(dir, entries[0]) + Walk(dir, entries[1..])
  }

  function WalkEntry(dir: string, e: Entry): (r: seq<string>)
    ensures |r| == FileCount([e])
    decreases e
  {
    assert [e][1..] == [];
    match e
    case File(n) => [Join(dir, n)]
    case Dir(n, sub) => Walk(Join(dir, n), sub)
  }

  /** The walk splices the results of consecutive entries in enumeration order. */
  lemma {:induction false} WalkConcat(dir: string, a: seq<Entry>, b: seq<Entry>)
    ensures Walk(dir, a + b) == Walk(dir, a) + Walk(dir, b)
    decreases |a|
  {
    if |a| == 0 {
      assert a + b == b;
    } else {
      assert (a + b)[0] == a[0];
      assert (a + b)[1..] == a[1..] + b;
      WalkConcat(dir, a[1..], b);
    }
  }

  lemma WalkSingle(dir: string, e: Entry)
    ensures Walk(dir, [e]) == WalkEntry(dir, e)
  {
    assert [e][1..] == [];
  }

  /** The independent description of the walk's contents: `p` is the path of a
      file leaf, that is a file entry's name joined under `dir`, or a leaf inside a
      directory entry, one level further down. A directory is never a leaf. */
  predicate LeafPath(dir: string, entries: seq<Entry>, p: string)
    decreases entries
  {
    exists j :: 0 <= j < |entries| && EntryLeaf(dir, entries[j], p)
  }

  predicate EntryLeaf(dir: string, e: Entry, p: string)
    decreases e
  {
    match e
    case File(n) => p == Join(dir, n)
    case Dir(n, sub) => LeafPath(Join(dir, n), sub, p)
  }

  /** The walk yields exactly the paths of the file leaves. */
  lemma {:induction false} WalkIsLeafPaths(dir: string, entries: seq<Entry>, p: string)
    ensures p in Walk(dir, entries) <==> LeafPath(dir, entries, p)
    decreases entries
  {
    if |entries| > 0 {
      var rest := entries[1..];
      WalkEntryIsLeafPath(dir, entries[0], p);
      WalkIsLeafPaths(dir, rest, p);
      if LeafPath(dir, entries, p) {
        var j :| 0 <= j < |entries| && EntryLeaf(dir, entries[j], p);
        if j > 0 {
          assert rest[j - 1] == entries[j];
        }
      }
      if LeafPath(dir, rest, p) {
        var j :| 0 <= j < |rest| && EntryLeaf(dir, rest[j], p);
        assert entries[j + 1] == rest[j];
      }
    }
  }

  lemma {:induction false} WalkEntryIsLeafPath(dir: string, e: Entry, p: string)
    ensures p in WalkEntry(dir, e) <==> EntryLeaf(dir, e, p)
    decreases e
  {
    match e
    case File(n) =>
    case Dir(n, sub) =>
      WalkIsLeafPaths(Join(dir, n), sub, p);
  }

  /** `children(dir)`: loops over the entries, appending a file's full path and
      concatenating a subdirectory's recursive result. */
  method Children(dir: string, entries: seq<Entry>) returns (result: seq<string>)
    ensures result == Walk(dir, entries)
    ensures |result| == FileCount(entries)
    decreases entries
  {
    result := [];
    var i := 0;
    while i < |entries|
      invariant 0 <= i <= |entries|
      invariant result == Walk(dir, entries[..i])
    {
      var entry := entries[i];
      var fullPath := Join(dir, entry.name);
      if entry.Dir? {
        var sub := Children(fullPath, entry.entries);
        result := result + sub;
      } else {
        result := result + [fullPath];
      }
      WalkConcat(dir, entries[..i], [entry]);
      WalkSingle(dir, entry);
      assert entries[..i + 1] == entries[..i] + [entry];
      i := i + 1;
    }
    assert entries[..|entries|] == entries;
  }

  /** `removePrefix(value, prefix)`: throws unless `value` starts with `prefix`
      (tested as `value.indexOf(prefix) == 0`), and otherwise drops the prefix. */
  function RemovePrefix(value: string, prefix: string): (r: Result<string, string>)
    ensures r.Success? <==> StartsWith(value, prefix)
    ensures r.Success? ==> prefix + r.value == value
    ensures r.Failure? ==> r.error == "value \"" + value + "\" did not have prefix \"" + prefix + "\""
  {
    if IndexOf(value, prefix) != Some(0) then
      Failure("value \"" + value + "\" did not have prefix \"" + prefix + "\"")
    else
      Success(value[|prefix|..])
  }

  /** The base directory with a trailing `/` added when missing. */
  function WithSlash(base: string): (r: string)
    ensures EndsWith(r, "/")
    ensures r == base || r == base + "/"
  {
    if EndsWith(base, "/") then base else base + "/"
  }

  function Prefixed(base: string, paths: seq<string>): (r: seq<string>)
    ensures |r| == |paths|
    ensures forall i :: 0 <= i < |paths| ==> r[i] == base + paths[i]
  {
    seq(|paths|, i requires 0 <= i < |paths| => base + paths[i])
  }

  /** Joining under a base that ends in `/` is joining under the empty directory
      with the base put in front. */
  lemma JoinUnderBase(base: string, x: string, n: string)
    requires EndsWith(base, "/")
    ensures Join(base + x, n) == base + Join(x, n)
  {
    if x != "" {
      SuffixOfConcat(base, x);
    }
  }

  lemma SuffixOfConcat(base: string, x: string)
    requires x != ""
    ensures base + x != ""
    ensures EndsWith(base + x, "/") <==> EndsWith(x, "/")
  {
    var s := base + x;
    assert s[|s| - 1] == x[|x| - 1];
    assert s[|s| - 1..] == [s[|s| - 1]];
    assert x[|x| - 1..] == [x[|x| - 1]];
  }

  /** Walking below a base ending in `/` yields the root-relative walk, each path
      with the base in front. */
  lemma {:induction false} WalkUnderBase(base: string, x: string, entries: seq<Entry>)
    requires EndsWith(base, "/")
    ensures Walk(base + x, entries) == Prefixed(base, Walk(x, entries))
    decreases entries
  {
    if |entries| > 0 {
      WalkEntryUnderBase(base, x, entries[0]);
      WalkUnderBase(base, x, entries[1..]);
    }
  }

  lemma {:induction false} WalkEntryUnderBase(base: string, x: string, e: Entry)
    requires EndsWith(base, "/")
    ensures WalkEntry(base + x, e) == Prefixed(base, WalkEntry(x, e))
    decreases e
  {
    JoinUnderBase(base, x, e.name);
    match e
    case File(n) =>
    case Dir(n, sub) =>
      WalkUnderBase(base, Join(x, n), sub);
  }

  /** Strips `base` from each walked path; fails on the first one lacking it. */
  function StripAll(paths: seq<string>, base: string): (r: Result<seq<string>, string>)
    ensures r.Success? ==> |r.value| == |paths|
    ensures r.Success? ==> forall i :: 0 <= i < |paths| ==> base + r.value[i] == paths[i]
  {
    if |paths| == 0 then Success([])
    else match (RemovePrefix(paths[0], base), StripAll(paths[1..], base))
      case (Success(p), Success(rest)) => Success([p] + rest)
      case (Failure(e), _) => Failure(e)
      case (_, Failure(e)) => Failure(e)
  }

  lemma {:induction false} StripPrefixed(base: string, paths: seq<string>)
    ensures StripAll(Prefixed(base, paths), base) == Success(paths)
    decreases |paths|
  {
    if |paths| > 0 {
      var ps := Prefixed(base, paths);
      assert ps[1..] == Prefixed(base, paths[1..]);
      StripPrefixed(base, paths[1..]);
      assert ps[0][..|base|] == base;
      assert ps[0][|base|..] == paths[0];
      assert paths == [paths[0]] + paths[1..];
    }
  }

  /** `i` starts a segment of `dir`. */
  predicate SegmentStart(dir: string, i: nat)
    requires i < |dir|
  {
    i == 0 || dir[i - 1] == '/'
  }

  /** The segment starting at `i` is `.` or `..`. */
  predicate DotSegment(dir: string, i: nat)
    requires i <= |dir|
  {
    var t := dir[i..];
    t == "." || t == ".." || StartsWith(t, "./") || StartsWith(t, "../")
  }

  /** A sufficient condition for `path.join` to leave a directory as it is: no
      `.` or `..` segment and no repeated `/`. Some bases it excludes, such as
      `../assets`, are also left unchanged. */
  predicate Normalised(dir: string) {
    (forall i :: 0 < i < |dir| ==> !(dir[i - 1] == '/' && dir[i] == '/'))
    && (forall i: nat :: i < |dir| && SegmentStart(dir, i) ==> !DotSegment(dir, i))
  }

  /** The staging directory the build passes in is normalised. */
  lemma StagingDirIsNormalised()
    ensures Normalised("target/assets")
  {
    var d := "target/assets";
    forall i: nat | i < |d| && SegmentStart(d, i)
      ensures !DotSegment(d, i)
    {
      assert i == 0 || i == 7;
      assert d[i] != '.';
    }
  }

  /** `relativeChildren(base)`: walks `base` (with a trailing `/` added) and strips
      it again. It never fails, and yields exactly the tree's file paths relative
      to the root, in walk order. The proof does not use `Normalised(base)`: the
      requires limits the claim to bases where `Join` agrees with `path.join`, such
      as the build's staging directory. */
  method RelativeChildren(base: string, entries: seq<Entry>) returns (r: Result<seq<string>, string>)
    requires Normalised(base)
    ensures r.Success?
    ensures |r.value| == |Walk(WithSlash(base), entries)|
    ensures forall i :: 0 <= i < |r.value| ==> WithSlash(base) + r.value[i] == Walk(WithSlash(base), entries)[i]
    ensures r.value == Walk("", entries)
    ensures |r.value| == FileCount(entries)
  {
    var root := WithSlash(base);
    var full := Children(root, entries);
    StripWalk(root, entries);
    r := StripAll(full, root);
  }

  /** Stripping a slash-terminated root from the walk below it gives the walk
      from the empty directory. */
  lemma StripWalk(root: string, entries: seq<Entry>)
    requires EndsWith(root, "/")
    ensures StripAll(Walk(root, entries), root) == Success(Walk("", entries))
  {
    assert root + "" == root;
    WalkUnderBase(root, "", entries);
    StripPrefixed(root, Walk("", entries));
  }
}

=== FILE: dispatch.dfy ===
/** The request dispatcher of the deployed worker (entry.js): classify the path,
    gate static candidates by method, serve hits from the asset store, and
    otherwise hand the request to the framework's render function and translate
    its answer. The asset store, the baked static-path set, the MIME lookup and
    the render function are parameters; the pathname is taken as given. */
module Dispatch {
  import opened Wrappers
  import opened Strings
  import StaticPaths

  /** One outgoing header line: name and value. */
  type Header = (string, string)

  /** An inbound request, with its header list already flattened to a map. */
  datatype Request = Request(
    verb: string, host: string, path: string, query: string,
    headers: map<string, string>, body: Option<string>)

  /** The argument the framework's `render` receives. */
  datatype RenderRequest = RenderRequest(
    headers: map<string, string>, host: string, verb: string,
    path: string, query: string, rawBody: Option<string>)

  /** A header value of a render response: one string, or an array of strings. */
  datatype HeaderValue = Single(text: string) | Multiple(items: seq<string>)

  /** The framework's response object; header entries in object-key order. */
  datatype RenderResponse = RenderResponse(
    status: int, headers: seq<(string, HeaderValue)>, body: string)

  /** A thrown value: its `message` property when it has one, and its string
      conversion. */
  datatype Thrown = Thrown(message: Option<string>, text: string)

  /** The three ways a render call can end. */
  datatype RenderOutcome = Rendered(response: RenderResponse) | Declined | Threw(error: Thrown)

  /** An outgoing response: status, header lines in append order, body. */
  datatype Response = Response(status: int, headers: seq<Header>, body: string)

  const AppPrefix := "/_app/"
  const Charset := "; charset=utf-8"

  // ---------------------------------------------------------------------------
  // Classification and the static tier.

  /** `safeMethod`: only GET and HEAD may read a static asset. The comparison
      is case-sensitive, so a lower-case spelling is refused. */
  function SafeMethod(verb: string): (r: bool)
    ensures r <==> verb in {"GET", "HEAD"}
    ensures r ==> forall i :: 0 <= i < |verb| ==> 'A' <= verb[i] <= 'Z'
  {
    verb == "GET" || verb == "HEAD"
  }

  /** A path is a static candidate when it has no trailing `/` and lies under
      `/_app/` or in the baked static-path set. */
  function IsStaticCandidate(path: string, staticPaths: set<string>): (r: bool)
    ensures EndsWith(path, "/") ==> !r
    ensures !EndsWith(path, "/") && StartsWith(path, AppPrefix) ==> r
    ensures !EndsWith(path, "/") && !StartsWith(path, AppPrefix) ==> (r <==> path in staticPaths)
  {
    !EndsWith(path, "/") && (StartsWith(path, AppPrefix) || path in staticPaths)
  }

  /** The same test written against the baked regex source, as the worker runs it. */
  predicate ClassifiesAsStatic(path: string, bakedRegex: string) {
    !EndsWith(path, "/")
    && (StartsWith(path, AppPrefix) || StaticPaths.Accepts(bakedRegex, path) == Some(true))
  }

  /** `url.pathname.slice(1)`: the asset-store key. */
  function StaticKey(path: string): (k: string)
    ensures |path| > 0 ==> [path[0]] + k == path
    ensures |path| == 0 ==> k == ""
  {
    if |path| == 0 then "" else path[1..]
  }

  /** `mime.getType(pathname) || 'text/plain'`. */
  function DeclaredType(path: string, mimeType: string -> Option<string>): (t: string)
    ensures t != ""
    ensures mimeType(path).Some? && mimeType(path).value != "" ==> t == mimeType(path).value
    ensures mimeType(path).None? || mimeType(path).value == "" ==> t == "text/plain"
  {
    match mimeType(path)
    case Some(t) => if t == "" then "text/plain" else t
    case None => "text/plain"
  }

  /** Textual types and JavaScript are served with a UTF-8 charset. */
  predicate NeedsCharset(t: string) {
    StartsWith(t, "text") || t == "application/javascript"
  }

  /** Content type of a static hit. */
  function StaticContentType(path: string, mimeType: string -> Option<string>): (t: string)
    ensures t == DeclaredType(path, mimeType) + Charset <==> NeedsCharset(DeclaredType(path, mimeType))
    ensures !NeedsCharset(DeclaredType(path, mimeType)) ==> t == DeclaredType(path, mimeType)
    ensures mimeType(path) == Some("application/javascript") ==> t == "application/javascript; charset=utf-8"
    ensures mimeType(path) == Some("text/css") ==> t == "text/css; charset=utf-8"
    ensures mimeType(path) == None ==> t == "text/plain; charset=utf-8"
  {
    var declared := DeclaredType(path, mimeType);
    TestedContentTypes();
    if StartsWith(declared, "text") || declared == "application/javascript" then declared + Charset
    else declared
  }

  /** The literal facts behind the content types the end-to-end tests check. */
  lemma TestedContentTypes()
    ensures "application/javascript" + Charset == "application/javascript; charset=utf-8"
    ensures StartsWith("text/css", "text") && "text/css" + Charset == "text/css; charset=utf-8"
    ensures StartsWith("text/plain", "text") && "text/plain" + Charset == "text/plain; charset=utf-8"
  {
    assert "text/css"[..4] == "text";
    assert "text/plain"[..4] == "text";
  }

  /** A static hit: 200, the stored body, and one `Content-Type` line. */
  function StaticResponse(path: string, body: string, mimeType: string -> Option<string>): (r: Response)
    ensures r.status == 200 && r.body == body
    ensures r.headers == [("Content-Type", StaticContentType(path, mimeType))]
  {
    Response(200, [("Content-Type", StaticContentType(path, mimeType))], body)
  }

  function MethodNotAllowed(): Response {
    Response(405, [("content-type", "text/plain")], "405 Method Not Allowed")
  }

  function NotFound(): Response {
    Response(404, [("content-type", "text/plain")], "404 Not Found")
  }

  /** `internalServerErrorResponse`: a 500 whose body is the given text, served as plain text. */
  function InternalServerError(body: string): (r: Response)
    ensures r.status == 500 && r.body == body
    ensures r.headers == [("Content-Type", "text/plain")]
  {
    Response(500, [("Content-Type", "text/plain")], body)
  }

  // ---------------------------------------------------------------------------
  // Header translation.

  /** The header name compares equal to `set-cookie` after lower-casing. */
  function IsSetCookie(key: string): (r: bool)
    ensures r ==> |key| == 10
  {
    ToLowerAscii(key) == "set-cookie"
  }

  /** The test ignores letter case and nothing else: each of the ten positions
      holds the lower- or the upper-case form of `set-cookie`'s character there. */
  lemma SetCookieAnyCase(key: string)
    ensures IsSetCookie(key) <==>
      |key| == 10 && forall i :: 0 <= i < 10 ==> key[i] == "set-cookie"[i] || key[i] == "SET-COOKIE"[i]
  {
    var lower, upper := "set-cookie", "SET-COOKIE";
    if |key| == 10 {
      var l := ToLowerAscii(key);
      forall i | 0 <= i < 10
        ensures l[i] == lower[i] <==> key[i] == lower[i] || key[i] == upper[i]
      {
        assert lower[i] == '-' || 'a' <= lower[i] <= 'z';
        assert upper[i] == if lower[i] == '-' then '-' else (lower[i] as int - 32) as char;
      }
      if forall i :: 0 <= i < 10 ==> l[i] == lower[i] {
        assert l == lower;
      }
    }
  }

  /** `String(array)`: the items joined with `,`. */
  function CommaJoin(items: seq<string>): string {
    if |items| == 0 then ""
    else if |items| == 1 then items[0]
    else items[0] + "," + CommaJoin(items[1..])
  }

  /** The string `headers.append(key, value)` stores for a value. */
  function AppendedValue(v: HeaderValue): string {
    match v
    case Single(t) => t
    case Multiple(items) => CommaJoin(items)
  }

  /** The lines one header entry appends. */
  function HeaderLines(key: string, value: HeaderValue): (r: seq<Header>)
    ensures IsSetCookie(key) && value.Multiple? ==>
      |r| == |value.items| && forall i :: 0 <= i < |r| ==> r[i] == (key, value.items[i])
    ensures !(IsSetCookie(key) && value.Multiple?) ==> r == [(key, AppendedValue(value))]
  {
    if IsSetCookie(key) && value.Multiple? then
      seq(|value.items|, i requires 0 <= i < |value.items| => (key, value.items[i]))
    else
      [(key, AppendedValue(value))]
  }

  lemma HeaderLinesFacts(key: string, value: HeaderValue)
    ensures forall h :: h in HeaderLines(key, value) ==> h.0 == key
    ensures !(IsSetCookie(key) && value.Multiple?) ==> (key, AppendedValue(value)) in HeaderLines(key, value)
    ensures IsSetCookie(key) && value.Multiple? ==>
      forall k :: 0 <= k < |value.items| ==> (key, value.items[k]) in HeaderLines(key, value)
  {
    var lines := HeaderLines(key, value);
    if IsSetCookie(key) && value.Multiple? {
      assert forall k :: 0 <= k < |value.items| ==> lines[k] == (key, value.items[k]);
    }
  }

  /** The header loop of `renderResponse`. */
  function TranslateHeaders(hs: seq<(string, HeaderValue)>): (r: seq<Header>)
    ensures forall h :: h in r ==> exists j :: 0 <= j < |hs| && hs[j].0 == h.0
    ensures forall j :: 0 <= j < |hs| && !(IsSetCookie(hs[j].0) && hs[j].1.Multiple?) ==>
      (hs[j].0, AppendedValue(hs[j].1)) in r
    ensures forall j, k ::
      (0 <= j < |hs| && IsSetCookie(hs[j].0) && hs[j].1.Multiple? && 0 <= k < |hs[j].1.items|)
      ==> (hs[j].0, hs[j].1.items[k]) in r
  {
    if |hs| == 0 then []
    else
      HeaderLinesFacts(hs[0].0, hs[0].1);
      HeaderLines(hs[0].0, hs[0].1) + TranslateHeaders(hs[1..])
  }

  /** Each header entry contributes its own lines, in place and in entry order. */
  lemma {:induction false} TranslateConcat(a: seq<(string, HeaderValue)>, b: seq<(string, HeaderValue)>)
    ensures TranslateHeaders(a + b) == TranslateHeaders(a) + TranslateHeaders(b)
    decreases |a|
  {
    if |a| == 0 {
      assert a + b == b;
    } else {
      assert (a + b)[0] == a[0];
      assert (a + b)[1..] == a[1..] + b;
      TranslateConcat(a[1..], b);
    }
  }

  /** A `set-cookie` array becomes one line per cookie, in array order, each
      holding exactly that cookie: never one comma-joined line. */
  lemma CookieArrayLines(key: string, cookies: seq<string>)
    requires IsSetCookie(key)
    ensures |TranslateHeaders([(key, Multiple(cookies))])| == |cookies|
    ensures forall i :: 0 <= i < |cookies| ==>
      TranslateHeaders([(key, Multiple(cookies))])[i] == (key, cookies[i])
  {
    var hs := [(key, Multiple(cookies))];
    assert hs[1..] == [];
    assert TranslateHeaders(hs) == HeaderLines(key, Multiple(cookies)) + [];
  }

  /** Any other entry appends exactly one line, with the value as `append` stores it. */
  lemma OtherHeaderLine(key: string, value: HeaderValue)
    requires !(IsSetCookie(key) && value.Multiple?)
    ensures TranslateHeaders([(key, value)]) == [(key, AppendedValue(value))]
  {
    var hs := [(key, value)];
    assert hs[1..] == [];
  }

  /** A mixed-case `Set-Cookie` array is expanded too, keeping the name as given. */
  lemma MixedCaseCookies()
    ensures TranslateHeaders([("Set-Cookie", Multiple(["a=b", "c=d"]))])
         == [("Set-Cookie", "a=b"), ("Set-Cookie", "c=d")]
  {
    SetCookieAnyCase("Set-Cookie");
    CookieArrayLines("Set-Cookie", ["a=b", "c=d"]);
  }

  /** The set-cookie case of the end-to-end tests: two cookies, two lines. */
  lemma TwoCookies()
    ensures TranslateHeaders([("set-cookie", Multiple(["a=b", "c=d"]))])
         == [("set-cookie", "a=b"), ("set-cookie", "c=d")]
  {
    var key := "set-cookie";
    assert ToLowerAscii(key) == key;
    CookieArrayLines(key, ["a=b", "c=d"]);
  }

  // ---------------------------------------------------------------------------
  // The render tier.

  /** `err.message || err`: the message when it is a non-empty string, else the
      thrown value's string conversion. */
  function ErrorDetail(e: Thrown): (r: string)
    ensures e.message.Some? && e.message.value != "" ==> r == e.message.value
    ensures e.message.None? || e.message.value == "" ==> r == e.text
  {
    match e.message
    case Some(m) => if m != "" then m else e.text
    case None => e.text
  }

  /** The argument built for `render`: every field is taken from the request. */
  function ToRenderRequest(req: Request): (r: RenderRequest)
    ensures r.headers == req.headers && r.host == req.host && r.verb == req.verb
    ensures r.path == req.path && r.query == req.query && r.rawBody == req.body
  {
    RenderRequest(req.headers, req.host, req.verb, req.path, req.query, req.body)
  }

  /** `renderResponse`: `None` when the framework declines the route. */
  function RenderRoute(req: Request, render: RenderRequest -> RenderOutcome): (r: Option<Response>)
    ensures r.None? <==> render(ToRenderRequest(req)).Declined?
    ensures render(ToRenderRequest(req)).Threw? ==> r.Some? && r.value.status == 500
    ensures render(ToRenderRequest(req)).Rendered? ==>
      r.Some? && r.value.status == render(ToRenderRequest(req)).response.status
      && r.value.body == render(ToRenderRequest(req)).response.body
  {
    match render(ToRenderRequest(req))
    case Rendered(rr) => Some(Response(rr.status, TranslateHeaders(rr.headers), rr.body))
    case Declined => None
    case Threw(e) => Some(InternalServerError("Error rendering route: " + ErrorDetail(e)))
  }

  /** The dynamic tier: render, with 404 when the framework declines. The request
      body reaches the framework as `rawBody`. */
  function Dynamic(req: Request, render: RenderRequest -> RenderOutcome): (r: Response)
    ensures render(ToRenderRequest(req)).Declined? ==> r == NotFound()
    ensures render(ToRenderRequest(req)).Threw? ==>
      r.status == 500 && r.headers == [("Content-Type", "text/plain")]
      && r.body == "Error rendering route: " + ErrorDetail(render(ToRenderRequest(req)).error)
    ensures render(ToRenderRequest(req)).Rendered? ==>
      var rr := render(ToRenderRequest(req)).response;
      r.status == rr.status && r.body == rr.body && r.headers == TranslateHeaders(rr.headers)
    ensures ToRenderRequest(req).rawBody == req.body && ToRenderRequest(req).path == req.path
  {
    match RenderRoute(req, render)
    case Some(resp) => resp
    case None => NotFound()
  }

  /** The decision of `handle`, given the response the dynamic tier would give. */
  function Route(req: Request, store: map<string, string>, staticPaths: set<string>,
                 mimeType: string -> Option<string>, fallback: Response): (r: Response)
    ensures !IsStaticCandidate(req.path, staticPaths) ==> r == fallback
    ensures IsStaticCandidate(req.path, staticPaths) && !SafeMethod(req.verb) ==> r == MethodNotAllowed()
    ensures (IsStaticCandidate(req.path, staticPaths) && SafeMethod(req.verb)
             && StaticKey(req.path) in store) ==>
      r == StaticResponse(req.path, store[StaticKey(req.path)], mimeType)
    ensures (IsStaticCandidate(req.path, staticPaths) && SafeMethod(req.verb)
             && StaticKey(req.path) !in store) ==> r == fallback
  {
    if IsStaticCandidate(req.path, staticPaths) then
      if !SafeMethod(req.verb) then MethodNotAllowed()
      else if StaticKey(req.path) in store then
        StaticResponse(req.path, store[StaticKey(req.path)], mimeType)
      else fallback
    else fallback
  }

  /** `handle`: the worker's answer to one request. */
  function Handle(req: Request, store: map<string, string>, staticPaths: set<string>,
                  mimeType: string -> Option<string>, render: RenderRequest -> RenderOutcome): (r: Response)
    ensures EndsWith(req.path, "/") ==> r == Dynamic(req, render)
    ensures !IsStaticCandidate(req.path, staticPaths) ==> r == Dynamic(req, render)
    ensures IsStaticCandidate(req.path, staticPaths) && !SafeMethod(req.verb) ==>
      r.status == 405 && r.body == "405 Method Not Allowed" && r.headers == [("content-type", "text/plain")]
    ensures (IsStaticCandidate(req.path, staticPaths) && SafeMethod(req.verb)
             && StaticKey(req.path) in store) ==>
      r.status == 200 && r.body == store[StaticKey(req.path)]
      && r.headers == [("Content-Type", StaticContentType(req.path, mimeType))]
    ensures (IsStaticCandidate(req.path, staticPaths) && SafeMethod(req.verb)
             && StaticKey(req.path) !in store) ==> r == Dynamic(req, render)
  {
    Route(req, store, staticPaths, mimeType, Dynamic(req, render))
  }

  // ---------------------------------------------------------------------------
  // Properties relating several calls.

  /** A path ending in `/` is answered the same whatever the store, the static
      set and the MIME table hold. */
  lemma TrailingSlashIgnoresStaticTier(
    req: Request, store1: map<string, string>, store2: map<string, string>,
    paths1: set<string>, paths2: set<string>,
    mime1: string -> Option<string>, mime2: string -> Option<string>,
    render: RenderRequest -> RenderOutcome)
    requires EndsWith(req.path, "/")
    ensures Handle(req, store1, paths1, mime1, render) == Handle(req, store2, paths2, mime2, render)
  {
  }

  /** A static candidate with an unsafe method gets the same 405 whatever the
      store holds and whatever render would do: render is never reached. */
  lemma MethodGateIgnoresStoreAndRender(
    req: Request, store1: map<string, string>, store2: map<string, string>,
    staticPaths: set<string>, mimeType: string -> Option<string>,
    render1: RenderRequest -> RenderOutcome, render2: RenderRequest -> RenderOutcome)
    requires IsStaticCandidate(req.path, staticPaths) && !SafeMethod(req.verb)
    ensures Handle(req, store1, staticPaths, mimeType, render1)
         == Handle(req, store2, staticPaths, mimeType, render2)
         == MethodNotAllowed()
  {
  }

  /** A hit in the store is served without consulting render. */
  lemma StaticHitIgnoresRender(
    req: Request, store: map<string, string>, staticPaths: set<string>,
    mimeType: string -> Option<string>,
    render1: RenderRequest -> RenderOutcome, render2: RenderRequest -> RenderOutcome)
    requires IsStaticCandidate(req.path, staticPaths) && SafeMethod(req.verb)
    requires StaticKey(req.path) in store
    ensures Handle(req, store, staticPaths, mimeType, render1)
         == Handle(req, store, staticPaths, mimeType, render2)
  {
  }

  /** Classifying against the baked set is classifying against the baked regex. */
  lemma ClassificationMatchesBakedRegex(staged: seq<string>, path: string)
    requires StaticPaths.Bakeable(staged)
    ensures IsStaticCandidate(path, StaticPaths.StaticPathSet(staged))
        <==> ClassifiesAsStatic(path, StaticPaths.BakedRegex(staged))
  {
    StaticPaths.BakedRegexIsMembership(staged, path);
  }

  /** Leaving `_app/` paths out of the pattern loses nothing: every staged file is
      a static candidate under its request path (unless that path ends in `/`). */
  lemma StagedPathsAreCandidates(staged: seq<string>, p: string)
    requires p in staged && !EndsWith("/" + p, "/")
    ensures IsStaticCandidate("/" + p, StaticPaths.StaticPathSet(staged))
  {
    if StartsWith(p, StaticPaths.ClientPrefix) {
      assert ("/" + p)[..|AppPrefix|] == "/" + p[..|StaticPaths.ClientPrefix|];
    }
  }

  // ---------------------------------------------------------------------------
  // The body read of entry.js:76 as written.

  /** What referencing the undefined identifier `read` throws. */
  const ReadIsNotDefined := Thrown(Some("read is not defined"), "ReferenceError: read is not defined")

  /** The dynamic tier as written: building the render argument calls `read`,
      which no module defines, whenever the request has a body; the resulting
      ReferenceError is caught like any render failure. */
  function DynamicAsWritten(req: Request, render: RenderRequest -> RenderOutcome): (r: Response)
    ensures req.body.None? ==> r == Dynamic(req, render)
    ensures req.body.Some? ==>
      r == InternalServerError("Error rendering route: " + ErrorDetail(ReadIsNotDefined))
  {
    if req.body.Some? then InternalServerError("Error rendering route: " + ErrorDetail(ReadIsNotDefined))
    else Dynamic(req, render)
  }

  function HandleAsWritten(req: Request, store: map<string, string>, staticPaths: set<string>,
                           mimeType: string -> Option<string>, render: RenderRequest -> RenderOutcome): (r: Response)
    ensures req.body.None? ==> r == Handle(req, store, staticPaths, mimeType, render)
    ensures (IsStaticCandidate(req.path, staticPaths)
             && (!SafeMethod(req.verb) || StaticKey(req.path) in store)) ==>
      r == Handle(req, store, staticPaths, mimeType, render)
  {
    Route(req, store, staticPaths, mimeType, DynamicAsWritten(req, render))
  }

  /** As written, every request with a body that reaches the render tier fails
      with 500, whatever the application would have answered. */
  lemma BodyRequestsFailAsWritten(
    req: Request, store: map<string, string>, staticPaths: set<string>,
    mimeType: string -> Option<string>, render: RenderRequest -> RenderOutcome)
    requires req.body.Some? && !IsStaticCandidate(req.path, staticPaths)
    ensures HandleAsWritten(req, store, staticPaths, mimeType, render)
         == Response(500, [("Content-Type", "text/plain")], "Error rendering route: read is not defined")
  {
    ReadErrorBody();
  }

  lemma ReadErrorBody()
    ensures "Error rendering route: " + ErrorDetail(ReadIsNotDefined) == "Error rendering route: read is not defined"
  {
  }

  /** A route that answers with the body it received. */
  function Echo(rq: RenderRequest): RenderOutcome {
    Rendered(RenderResponse(200, [], rq.rawBody.GetOr("")))
  }

  /** With the body passed through, an echoing route returns the posted body;
      as written, the same request gets the 500 above instead. */
  lemma EchoSeesBody(
    req: Request, store: map<string, string>, staticPaths: set<string>,
    mimeType: string -> Option<string>)
    requires req.body.Some? && !IsStaticCandidate(req.path, staticPaths)
    ensures Handle(req, store, staticPaths, mimeType, Echo) == Response(200, [], req.body.value)
    ensures HandleAsWritten(req, store, staticPaths, mimeType, Echo).status == 500
  {
    assert TranslateHeaders([]) == [];
  }
}

=== FILE: escaping.dfy ===
/** `regexEscape` of the build adapter (index.js:51): every character matched by
    the ECMAScript class `\W` gets a backslash in front of it. Its partners are
    `Unescape`, which drops each escaping backslash again, and `LiteralText`,
    which reads an escaped string back the way a regular-expression engine reads a
    run of literal atoms. */
module Escaping {
  import opened Wrappers

  /** The ECMAScript `\w` class: `[A-Za-z0-9_]`. */
  predicate IsWordChar(c: char) {
    ('a' <= c <= 'z') || ('A' <= c <= 'Z') || ('0' <= c <= '9') || c == '_'
  }

  function EscapeChar(c: char): string {
    if IsWordChar(c) then [c] else ['\\', c]
  }

  /** Number of characters of `s` outside `\w`. */
  function NonWordCount(s: string): nat {
    if |s| == 0 then 0
    else (if IsWordChar(s[0]) then 0 else 1) + NonWordCount(s[1..])
  }

  /** `v.replace(/\W/g, v => '\\' + v)`. */
  function RegexEscape(s: string): (r: string)
    ensures |r| == |s| + NonWordCount(s)
  {
    if |s| == 0 then "" else EscapeChar(s[0]) + RegexEscape(s[1..])
  }

  /** Removes the backslash in front of each escaped character. */
  function Unescape(e: string): string
    decreases |e|
  {
    if |e| == 0 then ""
    else if e[0] == '\\' && |e| >= 2 then [e[1]] + Unescape(e[2..])
    else [e[0]] + Unescape(e[1..])
  }

  /** Reads `e` as a sequence of literal atoms of a regular expression: a word
      character stands for itself and a backslash followed by a non-word character
      is an identity escape for that character. Anything else (an unescaped
      metacharacter, `\` followed by a word character such as `\d`, a trailing
      lone `\`) is not a plain literal, and the result is `None`. */
  function LiteralText(e: string): (r: Option<string>)
    decreases |e|
  {
    if |e| == 0 then Some("")
    else if IsWordChar(e[0]) then
      match LiteralText(e[1..])
      case Some(t) => Some([e[0]] + t)
      case None => None
    else if e[0] == '\\' && |e| >= 2 && !IsWordChar(e[1]) then
      match LiteralText(e[2..])
      case Some(t) => Some([e[1]] + t)
      case None => None
    else None
  }

  /** Escaping distributes over concatenation, so each character is escaped in
      place, independently of its neighbours. */
  lemma {:induction false} EscapeConcat(a: string, b: string)
    ensures RegexEscape(a + b) == RegexEscape(a) + RegexEscape(b)
    decreases |a|
  {
    if |a| == 0 {
      assert a + b == b;
    } else {
      assert (a + b)[0] == a[0];
      assert (a + b)[1..] == a[1..] + b;
      EscapeConcat(a[1..], b);
    }
  }

  /** A word character is kept as it is; any other character gets one backslash. */
  lemma EscapeSingle(c: char)
    ensures IsWordChar(c) ==> RegexEscape([c]) == [c]
    ensures !IsWordChar(c) ==> RegexEscape([c]) == ['\\', c]
  {
    assert [c][1..] == [];
  }

  /** A string of word characters only is left unchanged. */
  lemma {:induction false} EscapeWordsIdentity(s: string)
    requires forall i :: 0 <= i < |s| ==> IsWordChar(s[i])
    ensures RegexEscape(s) == s
    decreases |s|
  {
    if |s| > 0 {
      EscapeWordsIdentity(s[1..]);
      assert s == [s[0]] + s[1..];
    }
  }

  /** Dropping the escaping backslashes recovers the input. */
  lemma {:induction false} UnescapeInvertsEscape(s: string)
    ensures Unescape(RegexEscape(s)) == s
    decreases |s|
  {
    if |s| > 0 {
      var rest := RegexEscape(s[1..]);
      UnescapeInvertsEscape(s[1..]);
      if IsWordChar(s[0]) {
        assert RegexEscape(s) == [s[0]] + rest;
        assert s[0] != '\\';
        assert ([s[0]] + rest)[1..] == rest;
      } else {
        assert RegexEscape(s) == ['\\', s[0]] + rest;
        assert (['\\', s[0]] + rest)[2..] == rest;
      }
      assert s == [s[0]] + s[1..];
    }
  }

  /** Read as regular-expression atoms, an escaped string denotes exactly the
      string it was escaped from. */
  lemma {:induction false} LiteralTextOfEscape(s: string)
    ensures LiteralText(RegexEscape(s)) == Some(s)
    decreases |s|
  {
    if |s| > 0 {
      var rest := RegexEscape(s[1..]);
      LiteralTextOfEscape(s[1..]);
      if IsWordChar(s[0]) {
        assert RegexEscape(s) == [s[0]] + rest;
        assert ([s[0]] + rest)[1..] == rest;
      } else {
        assert RegexEscape(s) == ['\\', s[0]] + rest;
        assert (['\\', s[0]] + rest)[2..] == rest;
      }
      assert s == [s[0]] + s[1..];
    }
  }

  /** Conversely, a plain literal is always the escape of the text it denotes:
      together with `LiteralTextOfEscape`, `LiteralText(e) == Some(t)` holds
      exactly when `e == RegexEscape(t)`. */
  lemma {:induction false} EscapeOfLiteralText(e: string)
    requires LiteralText(e).Some?
    ensures RegexEscape(LiteralText(e).value) == e
    decreases |e|
  {
    var t := LiteralText(e).value;
    if |e| > 0 {
      if IsWordChar(e[0]) {
        var t' := LiteralText(e[1..]).value;
        EscapeOfLiteralText(e[1..]);
        assert t == [e[0]] + t';
        assert t[1..] == t';
        assert e == [e[0]] + e[1..];
      } else {
        var t' := LiteralText(e[2..]).value;
        EscapeOfLiteralText(e[2..]);
        assert t == [e[1]] + t';
        assert t[1..] == t';
        assert e == ['\\', e[1]] + e[2..];
      }
    }
  }
  /** The ECMAScript line terminators: LF, CR, LINE SEPARATOR and PARAGRAPH
      SEPARATOR. A regular-expression literal cannot contain one, not even after
      a backslash. */
  predicate IsLineTerminator(c: char) {
    c == '\n' || c == '\r' || c == '\U{2028}' || c == '\U{2029}'
  }

  predicate HasLineTerminator(s: string)
    decreases |s|
  {
    |s| > 0 && (IsLineTerminator(s[0]) || HasLineTerminator(s[1..]))
  }

  /** A concatenation holds a line terminator exactly when one of its parts does. */
  lemma {:induction false} LineTerminatorConcat(a: string, b: string)
    ensures HasLineTerminator(a + b) <==> HasLineTerminator(a) || HasLineTerminator(b)
    decreases |a|
  {
    if |a| == 0 {
      assert a + b == b;
    } else {
      assert (a + b)[0] == a[0];
      assert (a + b)[1..] == a[1..] + b;
      LineTerminatorConcat(a[1..], b);
    }
  }

  /** A string of word characters holds no line terminator. */
  lemma {:induction false} WordsHaveNoLineTerminator(s: string)
    requires forall i :: 0 <= i < |s| ==> IsWordChar(s[i])
    ensures !HasLineTerminator(s)
    decreases |s|
  {
    if |s| > 0 {
      WordsHaveNoLineTerminator(s[1..]);
    }
  }

  /** Escaping neither removes nor introduces a line terminator: the backslash it
      adds is not one, and the escaped character stays in place. */
  lemma {:induction false} EscapeKeepsLineTerminators(s: string)
    ensures HasLineTerminator(RegexEscape(s)) <==> HasLineTerminator(s)
    decreases |s|
  {
    if |s| > 0 {
      var c := EscapeChar(s[0]);
      LineTerminatorConcat(c, RegexEscape(s[1..]));
      EscapeKeepsLineTerminators(s[1..]);
      if IsWordChar(s[0]) {
        assert c[1..] == [];
      } else {
        assert c[1..] == [s[0]];
        assert [s[0]][1..] == [];
      }
    }
  }
}

=== FILE: static_paths.dfy ===
/** Build-time embedding of the static-path list (index.js:38-43) into the
    dispatcher's classification regex (entry.js:20), and the proof that the baked
    regex accepts exactly the paths `"/" + p` for the staged files `p` outside
    `_app/`, so the dispatcher may treat it as set membership. */
module StaticPaths {
  import opened Wrappers
  import opened Strings
  import opened Escaping

  /** The client-code prefix whose files are recognised by the dispatcher's own
      `/_app/` test and are therefore left out of the pattern. */
  const ClientPrefix := "_app/"

  /** The literal token `writeWorker` replaces in the bundled worker,
      `|static_paths`: a bar and a name made of word characters. */
  const PlaceholderName := "static_paths"
  const Placeholder := "|" + PlaceholderName

  /** Fixed text around the alternation of the classification regex. */
  const RegexHead := "^\\/(?:"
  const RegexTail := ")$"

  /** First alternative of the regex: a look-ahead for `a` followed by `b` at the
      same position, which no input can match. */
  const Sentinel := "(?=a)b"

  /** Source text of the classification regex in the dispatcher's entry module,
      `^\/(?:(?=a)b|static_paths)$`. */
  const EntryRegexSource := RegexHead + Sentinel + Placeholder + RegexTail

  /** `staticAssets.filter(path => !path.startsWith('_app/'))`. */
  function KeptPaths(staged: seq<string>): (r: seq<string>)
    ensures |r| <= |staged|
    ensures forall p :: p in r <==> p in staged && !StartsWith(p, ClientPrefix)
  {
    if |staged| == 0 then []
    else if StartsWith(staged[0], ClientPrefix) then KeptPaths(staged[1..])
    else [staged[0]] + KeptPaths(staged[1..])
  }

  /** `.map(path => '|' + regexEscape(path)).join('')` over already kept paths.
      Every path, even an empty one, opens its own alternative with a bar. */
  function Alternation(kept: seq<string>): (r: string)
    ensures |kept| > 0 ==> |r| > |kept[0]| && r[0] == '|'
    ensures |r| >= |kept|
  {
    if |kept| == 0 then "" else "|" + RegexEscape(kept[0]) + Alternation(kept[1..])
  }

  /** The replacement text computed by `writeWorker`: empty exactly when every
      staged path lies under the client-code prefix. */
  function BuildPattern(staged: seq<string>): (r: string)
    ensures r == "" <==> forall p :: p in staged ==> StartsWith(p, ClientPrefix)
  {
    var kept := KeptPaths(staged);
    assert |kept| > 0 ==> kept[0] in kept;
    Alternation(kept)
  }

  /** The build yields a worker that parses: no kept staged path holds a line
      terminator, which would end up inside the regex literal. */
  predicate Bakeable(staged: seq<string>) {
    forall p :: p in staged && !StartsWith(p, ClientPrefix) ==> !HasLineTerminator(p)
  }

  /** The request paths the baked pattern stands for: `"/" + p` for every staged
      path `p` outside the client-code prefix. */
  function StaticPathSet(staged: seq<string>): set<string> {
    set p | p in staged && !StartsWith(p, ClientPrefix) :: "/" + p
  }

  /** The regex source after `replaceInFile` substituted the pattern. */
  function BakedRegex(staged: seq<string>): (r: string)
    ensures StartsWith(r, RegexHead + Sentinel) && EndsWith(r, RegexTail)
    ensures |r| == |RegexHead + Sentinel| + |BuildPattern(staged)| + |RegexTail|
  {
    PlaceholderPosition();
    ReplaceAtFirst(RegexHead + Sentinel, Placeholder, RegexTail, BuildPattern(staged));
    ReplaceFirst(EntryRegexSource, Placeholder, BuildPattern(staged))
  }

  // ---------------------------------------------------------------------------
  // The fragment of regular-expression syntax the baked regex lives in.

  /** A string a regular-expression scanner crosses without meeting an
      unescaped `|` and without ending inside an escape. */
  predicate BarFree(e: string)
    decreases |e|
  {
    |e| == 0
    || (e[0] == '\\' && |e| >= 2 && BarFree(e[2..]))
    || (e[0] != '\\' && e[0] != '|' && BarFree(e[1..]))
  }

  /** Prepends `x` to the first of a non-empty list of alternatives. */
  function Prepend(x: string, parts: seq<string>): seq<string>
    requires |parts| >= 1
  {
    [x + parts[0]] + parts[1..]
  }

  /** Splits an alternation at every `|` that is not escaped by a backslash. */
  function SplitBars(s: string): (r: seq<string>)
    ensures |r| >= 1
    decreases |s|
  {
    if |s| == 0 then [""]
    else if s[0] == '|' then [""] + SplitBars(s[1..])
    else if s[0] == '\\' && |s| >= 2 then Prepend(s[..2], SplitBars(s[2..]))
    else Prepend(s[..1], SplitBars(s[1..]))
  }

  /** What one alternative of the fragment matches: nothing, or one literal string. */
  datatype Alternative = Never | Literal(text: string)

  /** Reads one alternative; `None` when it lies outside the fragment. */
  function ReadAlternative(a: string): Option<Alternative> {
    if a == Sentinel then Some(Never)
    else match LiteralText(a)
      case Some(t) => Some(Literal(t))
      case None => None
  }

  function ReadAlternatives(alts: seq<string>): Option<seq<Alternative>> {
    if |alts| == 0 then Some([])
    else match (ReadAlternative(alts[0]), ReadAlternatives(alts[1..]))
      case (Some(a), Some(rest)) => Some([a] + rest)
      case _ => None
  }

  /** Reads a source of shape `^\/(?:<alternation>)$`; `None` when the source is
      not of that shape, holds a line terminator (which ends a regular-expression
      literal early), or an alternative lies outside the fragment. */
  function ParseAnchored(src: string): Option<seq<Alternative>> {
    if HasLineTerminator(src)
      || |src| < |RegexHead| + |RegexTail|
      || src[..|RegexHead|] != RegexHead
      || src[|src| - |RegexTail|..] != RegexTail
    then None
    else ReadAlternatives(SplitBars(src[|RegexHead|..|src| - |RegexTail|]))
  }

  /** Whether `regex.test(path)` succeeds for a source of the fragment: the path
      is `/` followed by the text of some literal alternative. `None` when the
      source lies outside the fragment. */
  function Accepts(src: string, path: string): Option<bool> {
    match ParseAnchored(src)
    case None => None
    case Some(alts) => Some(|path| >= 1 && path[0] == '/' && Literal(path[1..]) in alts)
  }

  // ---------------------------------------------------------------------------
  // Properties.

  /** The filter works path by path: it distributes over concatenation. */
  lemma {:induction false} KeptConcat(a: seq<string>, b: seq<string>)
    ensures KeptPaths(a + b) == KeptPaths(a) + KeptPaths(b)
    decreases |a|
  {
    if |a| == 0 {
      assert a + b == b;
    } else {
      assert (a + b)[0] == a[0];
      assert (a + b)[1..] == a[1..] + b;
      KeptConcat(a[1..], b);
    }
  }

  /** One path is kept, as it is, exactly when it lies outside `_app/`. */
  lemma KeptSingle(p: string)
    ensures StartsWith(p, ClientPrefix) ==> KeptPaths([p]) == []
    ensures !StartsWith(p, ClientPrefix) ==> KeptPaths([p]) == [p]
  {
    assert [p][1..] == [];
  }

  /** So the kept paths keep their staged order and multiplicity: appending one
      staged path appends it to the pattern's paths, or nothing for `_app/`. */
  lemma KeptSnoc(staged: seq<string>, p: string)
    ensures KeptPaths(staged + [p])
         == KeptPaths(staged) + (if StartsWith(p, ClientPrefix) then [] else [p])
  {
    KeptConcat(staged, [p]);
    KeptSingle(p);
  }

  /** The pattern concatenates `'|' + regexEscape(p)` over consecutive kept paths. */
  lemma {:induction false} AlternationConcat(a: seq<string>, b: seq<string>)
    ensures Alternation(a + b) == Alternation(a) + Alternation(b)
    decreases |a|
  {
    if |a| == 0 {
      assert a + b == b;
    } else {
      assert (a + b)[0] == a[0];
      assert (a + b)[1..] == a[1..] + b;
      AlternationConcat(a[1..], b);
    }
  }

  lemma {:induction false} LiteralIsBarFree(e: string)
    requires LiteralText(e).Some?
    ensures BarFree(e)
    decreases |e|
  {
    if |e| > 0 {
      if IsWordChar(e[0]) {
        LiteralIsBarFree(e[1..]);
      } else {
        LiteralIsBarFree(e[2..]);
      }
    }
  }

  /** An escaped path holds no unescaped `|`, so it stays one alternative. */
  lemma EscapedIsBarFree(s: string)
    ensures BarFree(RegexEscape(s))
  {
    LiteralTextOfEscape(s);
    LiteralIsBarFree(RegexEscape(s));
  }

  lemma PrependTwice(x: string, y: string, parts: seq<string>)
    requires |parts| >= 1
    ensures Prepend(x, Prepend(y, parts)) == Prepend(x + y, parts)
  {
    assert x + (y + parts[0]) == (x + y) + parts[0];
  }

  /** One scanner step over an escape pair `\c`. */
  lemma SplitEscapeStep(a: string, t: string)
    requires |a| >= 2 && a[0] == '\\'
    ensures SplitBars(a + t) == Prepend(a[..2], SplitBars(a[2..] + t))
  {
    assert (a + t)[0] == '\\';
    assert (a + t)[..2] == a[..2];
    assert (a + t)[2..] == a[2..] + t;
  }

  /** One scanner step over a character that is neither `|` nor `\`. */
  lemma SplitPlainStep(a: string, t: string)
    requires |a| >= 1 && a[0] != '\\' && a[0] != '|'
    ensures SplitBars(a + t) == Prepend(a[..1], SplitBars(a[1..] + t))
  {
    assert (a + t)[0] == a[0];
    assert (a + t)[..1] == a[..1];
    assert (a + t)[1..] == a[1..] + t;
  }

  /** Splitting after a bar-free prefix glues that prefix onto the first part. */
  lemma {:induction false} SplitAfterBarFree(a: string, t: string)
    requires BarFree(a)
    ensures SplitBars(a + t) == Prepend(a, SplitBars(t))
    decreases |a|
  {
    var p := SplitBars(t);
    if |a| == 0 {
      assert a + t == t;
      assert "" + p[0] == p[0];
      assert [p[0]] + p[1..] == p;
    } else if a[0] == '\\' && |a| >= 2 {
      SplitEscapeStep(a, t);
      SplitAfterBarFree(a[2..], t);
      PrependTwice(a[..2], a[2..], p);
      assert a[..2] + a[2..] == a;
    } else {
      SplitPlainStep(a, t);
      SplitAfterBarFree(a[1..], t);
      PrependTwice(a[..1], a[1..], p);
      assert a[..1] + a[1..] == a;
    }
  }

  function EscapeAll(ps: seq<string>): (r: seq<string>)
    ensures |r| == |ps|
  {
    if |ps| == 0 then [] else [RegexEscape(ps[0])] + EscapeAll(ps[1..])
  }

  function LiteralsOf(ps: seq<string>): (r: seq<Alternative>)
    ensures |r| == |ps|
  {
    if |ps| == 0 then [] else [Literal(ps[0])] + LiteralsOf(ps[1..])
  }

  /** After a bar-free first alternative, the alternation splits into exactly the
      escaped kept paths, in order. */
  lemma {:induction false} SplitAlternation(a: string, kept: seq<string>)
    requires BarFree(a)
    ensures SplitBars(a + Alternation(kept)) == [a] + EscapeAll(kept)
    decreases |kept|
  {
    if |kept| == 0 {
      SplitAfterBarFree(a, "");
      assert a + "" == a;
    } else {
      var e := RegexEscape(kept[0]);
      var rest := Alternation(kept[1..]);
      assert a + Alternation(kept) == a + ("|" + (e + rest));
      SplitAtBar(a, e + rest);
      EscapedIsBarFree(kept[0]);
      SplitAlternation(e, kept[1..]);
    }
  }

  /** A bar after a bar-free prefix ends the first alternative. */
  lemma SplitAtBar(a: string, t: string)
    requires BarFree(a)
    ensures SplitBars(a + ("|" + t)) == [a] + SplitBars(t)
  {
    SplitAfterBarFree(a, "|" + t);
    assert ("|" + t)[1..] == t;
    assert SplitBars("|" + t) == [""] + SplitBars(t);
    assert a + "" == a;
  }

  lemma {:induction false} ReadEscaped(kept: seq<string>)
    ensures ReadAlternatives(EscapeAll(kept)) == Some(LiteralsOf(kept))
    decreases |kept|
  {
    if |kept| > 0 {
      var e := RegexEscape(kept[0]);
      LiteralTextOfEscape(kept[0]);
      assert LiteralText(Sentinel) == None;
      assert e != Sentinel;
      ReadEscaped(kept[1..]);
      assert EscapeAll(kept)[1..] == EscapeAll(kept[1..]);
    }
  }

  lemma {:induction false} LiteralsOfMembership(kept: seq<string>, w: string)
    ensures Literal(w) in LiteralsOf(kept) <==> w in kept
    decreases |kept|
  {
    if |kept| > 0 {
      LiteralsOfMembership(kept[1..], w);
      assert kept == [kept[0]] + kept[1..];
    }
  }

  /** The placeholder first occurs right after the sentinel alternative. */
  lemma PlaceholderPosition()
    ensures FirstOccurrence(EntryRegexSource, Placeholder, |RegexHead + Sentinel|)
  {
    var src := EntryRegexSource;
    var front := RegexHead + Sentinel;
    assert src == front + (Placeholder + RegexTail);
    assert src[|front|..|front| + |Placeholder|] == Placeholder;
    assert forall k :: 0 <= k < |front| ==> front[k] != '|';
    forall j: nat | j < |front|
      ensures !OccursAt(src, Placeholder, j)
    {
      assert src[j] == front[j];
    }
  }

  /** The substitution lands on the placeholder inside the regex literal. */
  lemma BakedRegexShape(staged: seq<string>)
    ensures BakedRegex(staged) == RegexHead + (Sentinel + BuildPattern(staged)) + RegexTail
  {
    PlaceholderPosition();
    ReplaceAtFirst(RegexHead + Sentinel, Placeholder, RegexTail, BuildPattern(staged));
    RegroupMiddle(RegexHead, Sentinel, BuildPattern(staged), RegexTail);
  }

  /** A regex of the dispatcher's shape whose alternation is the sentinel
      followed by escaped paths accepts exactly `/` followed by one of them. */
  lemma AcceptsAlternation(kept: seq<string>, path: string)
    requires forall p :: p in kept ==> !HasLineTerminator(p)
    ensures Accepts(RegexHead + (Sentinel + Alternation(kept)) + RegexTail, path)
         == Some(|path| >= 1 && path[0] == '/' && path[1..] in kept)
  {
    var body := Sentinel + Alternation(kept);
    var src := RegexHead + body + RegexTail;
    ShapeLineTerminator(kept);
    assert src[..|RegexHead|] == RegexHead;
    assert src[|src| - |RegexTail|..] == RegexTail;
    assert src[|RegexHead|..|src| - |RegexTail|] == body;
    assert BarFree(Sentinel);
    SplitAlternation(Sentinel, kept);
    ReadEscaped(kept);
    assert ReadAlternative(Sentinel) == Some(Never);
    assert ParseAnchored(src) == Some([Never] + LiteralsOf(kept));
    if |path| >= 1 && path[0] == '/' {
      LiteralsOfMembership(kept, path[1..]);
    }
  }

  /** The fixed text around the alternation holds no line terminator. */
  lemma FixedTextHasNoLineTerminator()
    ensures !HasLineTerminator(RegexHead) && !HasLineTerminator(Sentinel)
    ensures !HasLineTerminator(RegexTail) && !HasLineTerminator("|")
  {
  }

  /** The pattern holds a line terminator exactly when some path in it does. */
  lemma {:induction false} AlternationLineTerminator(kept: seq<string>)
    ensures HasLineTerminator(Alternation(kept)) <==> exists p :: p in kept && HasLineTerminator(p)
    decreases |kept|
  {
    if |kept| > 0 {
      var e := RegexEscape(kept[0]);
      FixedTextHasNoLineTerminator();
      LineTerminatorConcat("|", e);
      LineTerminatorConcat("|" + e, Alternation(kept[1..]));
      EscapeKeepsLineTerminators(kept[0]);
      AlternationLineTerminator(kept[1..]);
      assert kept == [kept[0]] + kept[1..];
    }
  }

  /** So does the whole regex source of the dispatcher's shape. */
  lemma ShapeLineTerminator(kept: seq<string>)
    ensures HasLineTerminator(RegexHead + (Sentinel + Alternation(kept)) + RegexTail)
        <==> exists p :: p in kept && HasLineTerminator(p)
  {
    var alt := Alternation(kept);
    FixedTextHasNoLineTerminator();
    LineTerminatorConcat(Sentinel, alt);
    LineTerminatorConcat(RegexHead, Sentinel + alt);
    LineTerminatorConcat(RegexHead + (Sentinel + alt), RegexTail);
    AlternationLineTerminator(kept);
  }

  /** The key cross-file fact: once the pattern is baked in, the dispatcher's
      regex accepts a path exactly when it is `"/" + p` for a kept staged path `p`.
      A kept path with a line terminator instead breaks the regex literal, and
      the baked source does not parse. */
  lemma BakedRegexIsMembership(staged: seq<string>, path: string)
    ensures Bakeable(staged) ==> Accepts(BakedRegex(staged), path) == Some(path in StaticPathSet(staged))
    ensures !Bakeable(staged) ==> Accepts(BakedRegex(staged), path) == None
  {
    var kept := KeptPaths(staged);
    BakedRegexShape(staged);
    StaticPathSetMembership(staged, path);
    if Bakeable(staged) {
      AcceptsAlternation(kept, path);
    } else {
      ShapeLineTerminator(kept);
    }
  }

  lemma StaticPathSetMembership(staged: seq<string>, path: string)
    ensures path in StaticPathSet(staged)
        <==> |path| >= 1 && path[0] == '/' && path[1..] in KeptPaths(staged)
  {
    if |path| >= 1 && path[0] == '/' && path[1..] in KeptPaths(staged) {
      assert path == "/" + path[1..];
    }
    if path in StaticPathSet(staged) {
      var p :| p in staged && !StartsWith(p, ClientPrefix) && path == "/" + p;
      assert path[1..] == p;
    }
  }

  /** With no path to embed the baked regex accepts nothing. */
  lemma NothingKeptAcceptsNothing(staged: seq<string>, path: string)
    requires KeptPaths(staged) == []
    ensures Accepts(BakedRegex(staged), path) == Some(false)
  {
    BakedRegexShape(staged);
    AcceptsAlternation([], path);
  }

  /** Were the placeholder left in place, the regex would accept only the path
      `/static_paths` itself. */
  lemma UnsubstitutedRegex(path: string)
    ensures Accepts(EntryRegexSource, path) == Some(path == "/static_paths")
  {
    PlaceholderIsAlternation();
    PlaceholderNameIsWord();
    AcceptsOneName(PlaceholderName, path);
    SlashPrefixed(path, PlaceholderName);
  }

  /** A one-path alternation accepts exactly that path behind a `/`. */
  lemma AcceptsOneName(name: string, path: string)
    requires !HasLineTerminator(name)
    ensures Accepts(RegexHead + (Sentinel + Alternation([name])) + RegexTail, path)
         == Some(|path| >= 1 && path[0] == '/' && path[1..] in [name])
  {
    AcceptsAlternation([name], path);
  }

  /** The placeholder is itself a one-path alternation. */
  lemma PlaceholderIsAlternation()
    ensures EntryRegexSource == RegexHead + (Sentinel + Alternation([PlaceholderName])) + RegexTail
  {
    PlaceholderNameIsWord();
    AlternationSingle(PlaceholderName);
    RegroupMiddle(RegexHead, Sentinel, Placeholder, RegexTail);
  }

  lemma PlaceholderNameIsWord()
    ensures RegexEscape(PlaceholderName) == PlaceholderName
    ensures !HasLineTerminator(PlaceholderName)
  {
    var name := PlaceholderName;
    assert forall i :: 0 <= i < |name| ==> IsWordChar(name[i]);
    EscapeWordsIdentity(name);
    WordsHaveNoLineTerminator(name);
  }

  lemma AlternationSingle(p: string)
    ensures Alternation([p]) == "|" + RegexEscape(p)
  {
    assert [p][1..] == [];
  }

  lemma SlashPrefixed(path: string, name: string)
    ensures (|path| >= 1 && path[0] == '/' && path[1..] in [name]) <==> path == "/" + name
    ensures "/" + PlaceholderName == "/static_paths"
  {
    if path == "/" + name {
      assert path[1..] == name;
    }
  }
}

=== FILE: strings.dfy ===
/** String primitives the adapter relies on: `startsWith`, `endsWith`, `indexOf`,
    the first-occurrence `replace` of a literal pattern, and ASCII lower-casing. */
module Strings {
  import opened Wrappers

  predicate StartsWith(s: string, prefix: string) {
    |prefix| <= |s| && s[..|prefix|] == prefix
  }

  predicate EndsWith(s: string, suffix: string) {
    |suffix| <= |s| && s[|s| - |suffix|..] == suffix
  }

  /** `needle` occurs in `s` starting at index `i`. */
  predicate OccursAt(s: string, needle: string, i: nat) {
    i + |needle| <= |s| && s[i..i + |needle|] == needle
  }

  /** `i` is the first index at which `needle` occurs in `s`. */
  predicate FirstOccurrence(s: string, needle: string, i: nat) {
    OccursAt(s, needle, i) && forall j: nat :: j < i ==> !OccursAt(s, needle, j)
  }

  /** Left-to-right search for `needle` from index `from` on. */
  function IndexFrom(s: string, needle: string, from: nat): (r: Option<nat>)
    ensures r.Some? ==> from <= r.value && OccursAt(s, needle, r.value)
    ensures r.Some? ==> forall j: nat :: from <= j < r.value ==> !OccursAt(s, needle, j)
    ensures r.None? ==> forall j: nat :: from <= j ==> !OccursAt(s, needle, j)
    decreases |s| - from
  {
    if from + |needle| > |s| then None
    else if s[from..from + |needle|] == needle then Some(from)
    else IndexFrom(s, needle, from + 1)
  }

  /** JavaScript's `s.indexOf(needle)`, with `None` for -1. The empty needle is
      found at index 0. */
  function IndexOf(s: string, needle: string): (r: Option<nat>)
    ensures r.Some? <==> exists i: nat :: OccursAt(s, needle, i)
    ensures r.Some? ==> FirstOccurrence(s, needle, r.value)
  {
    IndexFrom(s, needle, 0)
  }

  /** `content.replace(placeholder, replacement)` with a string pattern: only the
      first occurrence is replaced, and the content is returned unchanged when the
      placeholder is absent. The replacement is taken literally. */
  function ReplaceFirst(content: string, placeholder: string, replacement: string): (r: string)
    ensures (forall j: nat :: !OccursAt(content, placeholder, j)) ==> r == content
    ensures forall i: nat :: FirstOccurrence(content, placeholder, i) ==>
      r == content[..i] + replacement + content[i + |placeholder|..]
  {
    match IndexOf(content, placeholder)
    case None => content
    case Some(i) => content[..i] + replacement + content[i + |placeholder|..]
  }

  /** Replacing at a known first occurrence splices in the replacement there. */
  lemma ReplaceAtFirst(front: string, placeholder: string, tail: string, replacement: string)
    requires FirstOccurrence(front + placeholder + tail, placeholder, |front|)
    ensures ReplaceFirst(front + placeholder + tail, placeholder, replacement) == front + replacement + tail
  {
    var s := front + placeholder + tail;
    assert s[..|front|] == front;
    assert s[|front| + |placeholder|..] == tail;
  }

  lemma RegroupMiddle(a: string, b: string, c: string, d: string)
    ensures a + b + c + d == a + (b + c) + d
  {
  }

  function LowerChar(c: char): char {
    if 'A' <= c <= 'Z' then (c as int + 32) as char else c
  }

  /** `toLowerCase` restricted to ASCII letters, the only letters a valid header
      name can hold. */
  function ToLowerAscii(s: string): (r: string)
    ensures |r| == |s|
    ensures forall i :: 0 <= i < |r| ==> !('A' <= r[i] <= 'Z')
    ensures forall i :: 0 <= i < |s| ==>
      r[i] == s[i] || ('A' <= s[i] <= 'Z' && r[i] as int == s[i] as int + 32)
  {
    seq(|s|, i requires 0 <= i < |s| => LowerChar(s[i]))
  }
}

=== FILE: wrappers.dfy ===
/** Failure-carrying datatypes shared by the other modules. */
module Wrappers {

  /** A value that may be absent: JavaScript's `null`/`undefined` results. */
  datatype Option<+T> = None | Some(value: T) {

    /** The carried value, or `fallback` when absent (JavaScript's `x || fallback`
        when every present value is truthy). */
    function GetOr(fallback: T): T {
      match this
      case Some(v) => v
      case None => fallback
    }
  }

  /** The outcome of an operation that may throw: a value, or the thrown message. */
  datatype Result<+R, +E> = Success(value: R) | Failure(error: E)
}
